=== FILE: README.md ===
# Provisioning retry loops of the EC2 and SageMaker auto-creation scripts

This project models the control core of two provisioning scripts. It proves
properties of that model in Dafny.

- `ec2-auto-creatation.py` launches `target_count` EC2 instances one at a time.
  It uses two counters, `instances_remaining` and `retry_attempts`. A fixed table
  of error codes is retried after a constant sleep. Any other client error is
  re-raised.
- `sagemaker-auto-creation.py` deploys a model in two phases. Phase 1 creates an
  endpoint configuration once, guarded against a local `config.json` and an
  already existing remote config. Phase 2 is a bounded retry loop that creates
  the endpoint. When phase 2 hits a non-retryable error it deletes the config
  it was given, then re-raises that error.

Every AWS call is an abstract outcome `Ok | Err(code)`. `run_instances` and
`create_endpoint` can be called many times, so their outcomes come from an
oracle indexed by call number. The EC2 notification is sent once per launch,
and whether it was delivered is read from a second oracle indexed by the same
call number. The SageMaker describe, config create, delete and notification
each happen at most once per run, and each reads one scripted outcome. A run returns its trace (each call with its
outcome, each publish with whether it was delivered, each sleep with its
duration, each delete) together with the final counters and how the loop
ended: `Done`, `Exhausted`, `Aborted(code)` or `SleepRejected(seconds)`.

Files:
- `outcomes.dfy`: call outcomes, loop exits, counting over traces.
- `ec2_launch.dfy`: the EC2 classifier, launch loop and `main`.
- `ec2_properties.dfy`: lemmas about the EC2 loop.
- `sagemaker_deploy.dfy`: the SageMaker classifier, both phases and `main`.
- `sagemaker_properties.dfy`: lemmas about the SageMaker flow.
- `classifiers.dfy`: how the two retry tables relate.

Where the scripts' docstrings and their code disagree, the model follows the
code:
- The delay is the same `retry_interval` on every retry. The docstrings promise
  exponential backoff, but the code never grows the delay.
- `create_endpoint_config` makes a single attempt, although its docstring
  mentions retry logic.

Some behaviours of the code that the model keeps:
- When the retry budget runs out, the loops return normally and the exit code
  is 0.
- The failure that exhausts the budget is still followed by a sleep. So `N`
  retryable failures give `N` sleeps.
- `Unsupported` is in the EC2 retry table, so it is retried.
- argparse accepts any integer interval, but `time.sleep` does not sleep for
  all of them. It raises `ValueError` for a negative interval. It raises
  `OverflowError` for more than 9223372036 seconds, because CPython holds the
  duration as signed 64-bit nanoseconds. Neither error is a `ClientError`, so
  both escape the loop and `main` exits with 1. The SageMaker config is then
  not deleted. The model has this path as `SleepRejected`, with the accepted
  range `0..9223372036` given by `SleepAccepts`.

## Model

| member | source | states |
|---|---|---|
| `Ec2Launch.HandleApiErrors` | ec2-auto-creatation.py:74-89 | retries exactly IdempotentParameterMismatch, InsufficientInstanceCapacity, RequestLimitExceeded, ServiceUnavailable and Unsupported; every other code is fatal |
| `Ec2Launch.Loop` | ec2-auto-creatation.py:99-148 | termination by the lexicographic measure (remaining, max_retry - attempts); the loop invariant 0 <= remaining <= target_count and 0 <= attempts <= max_retry holds at every loop head; the remaining count equals the start value minus the launches in the trace; Done exactly when no instance is left; Exhausted only with the full budget spent |
| `Ec2Launch.LaunchInstances` | ec2-auto-creatation.py:91-148 | no call at all when target_count <= 0 or max_retry <= 0; remaining stays within [0, target_count] and equals target_count minus the launches performed, so earlier launches are never undone |
| `Ec2Launch.Main` | ec2-auto-creatation.py:165-181 | a count below 1 exits with 1 before any call; otherwise what `main` does is exactly the `launch_instances` run for (count, retry_interval, max_retry), and the exit code is 0 exactly when that run raised nothing, so an exhausted budget still exits 0 |
| `Ec2Properties.LoopCountersFollowTrace` | ec2-auto-creatation.py:129-143 | from any loop head, the final counters are what the event history yields when each launch takes one unit off and clears the failure count and each failure adds one |
| `Ec2Properties.CountersFollowTrace` | ec2-auto-creatation.py:129-143 | a success decrements remaining by exactly one and resets attempts to 0; a failed call adds one attempt; a notification, delivered or not, changes neither counter |
| `Ec2Properties.LoopCallBound` | ec2-auto-creatation.py:108-148 | from a loop head with units left, at most remaining * max_retry - attempts create calls follow |
| `Ec2Properties.CallBound` | ec2-auto-creatation.py:108-148 | a run makes at most target_count * max_retry create calls, and none when either is not positive |
| `Ec2Properties.MainCallBound` | ec2-auto-creatation.py:165-178 | `main` makes at most count * max_retry create calls, and none for a count below 1 or a budget that is not positive |
| `Ec2Properties.LoopAbortIsLast` | ec2-auto-creatation.py:142-145 | from any loop head, a non-retryable failure is the last event and the loop ends Aborted with its code |
| `Ec2Properties.AbortIsLast` | ec2-auto-creatation.py:142-145 | a non-retryable error is the last event of the run (no sleep, no further call) and is the error re-raised; a run aborts only this way |
| `Ec2Properties.LoopSleepsPaired` | ec2-auto-creatation.py:142-148 | from any loop head with an interval `time.sleep` accepts (0 to 9223372036 seconds), each retryable failure is immediately followed by one sleep of retry_interval and each sleep follows one |
| `Ec2Properties.LoopSleepRejected` | ec2-auto-creatation.py:142-148 | from any loop head with an interval `time.sleep` rejects (negative or above 9223372036), no sleep happens; a retryable failure ends the loop with the sleep error, so there is at most one and it is the last event |
| `Ec2Properties.Sleeps` | ec2-auto-creatation.py:142-148 | with an interval `time.sleep` accepts, every retryable failure, including the exhausting one, is followed by exactly one sleep of retry_interval and every sleep follows one; with an interval it rejects there is no sleep, at most one retryable failure, and that failure is the last event and ends the run with the sleep error |
| `Ec2Properties.LoopOnlyRetryable` | ec2-auto-creatation.py:108-148 | with only retryable errors, a loop head with `attempts` spent makes max_retry - attempts calls and as many sleeps |
| `Ec2Properties.OnlyRetryableErrors` | ec2-auto-creatation.py:108-148 | with only retryable errors, exactly max_retry calls and max_retry sleeps, then a normal return with remaining == target_count |
| `Ec2Properties.LoopOnlySuccesses` | ec2-auto-creatation.py:108-140 | with only successes, a loop head with `remaining` left makes that many calls and publishes and no sleep |
| `Ec2Properties.OnlySuccesses` | ec2-auto-creatation.py:108-140 | with only successes, exactly target_count calls, one notification per launch, zero sleeps, ending Done |
| `Ec2Properties.LoopNotificationChangesNothing` | ec2-auto-creatation.py:128-140 | from any loop head, publish outcomes do not change counters, exit or calls |
| `Ec2Properties.NotificationChangesNothing` | ec2-auto-creatation.py:128-140 | two runs that differ only in notification delivery have the same counters, the same outcome and the same calls and sleeps |
| `Ec2Properties.LoopBudgetPerUnit` | ec2-auto-creatation.py:108-148 | from any loop head, when the budget runs out the events after the last launch hold max_retry calls (max_retry - attempts if nothing was launched), all retryable failures |
| `Ec2Properties.BudgetPerUnit` | ec2-auto-creatation.py:139-143 | the failure count is per unit: an exhausted run gave the unit still pending exactly max_retry calls, all retryable failures, whatever the units launched before it needed |
| `Ec2Properties.LoopReadsInOrder` | ec2-auto-creatation.py:108-148 | from a loop head that has made `calls` create calls, the k-th call after it reads the provider's outcome for call `calls + k`, whether the previous call launched or failed |
| `Ec2Properties.RunReadsInOrder` | ec2-auto-creatation.py:108-148 | the outcomes of a run's create calls, in order, are the provider's outcomes for calls 0, 1, 2, ...: one fresh outcome per call, none skipped or read twice |
| `Ec2Properties.LaunchThenFatalExitsOne` | ec2-auto-creatation.py:108-178 | with count 2, a budget of 1 and outcomes (success, InvalidParameterValue), `main` launches and publishes once, then re-raises the second call's error and exits 1 |
| `Ec2Properties.BudgetResetsAfterLaunch` | ec2-auto-creatation.py:139-140 | example only: with a budget of two, alternating one retryable failure and one success launches both instances, with the exact eight-event trace |
| `SageMakerDeploy.HandleApiErrors` | sagemaker-auto-creation.py:68-81 | retries exactly ThrottlingException, ServiceUnavailable and InternalFailure; every other code is fatal |
| `SageMakerDeploy.ConfigExists` | sagemaker-auto-creation.py:58-66 | a successful describe means the config exists, ValidationException means it does not, and any other error propagates with its code |
| `SageMakerDeploy.CreateEndpointConfig` | sagemaker-auto-creation.py:83-118 | a local config.json or an existing remote config returns None with no create call; at most one create attempt and never a sleep; a returned name is model_name + "-config" and follows a successful create; a describe error other than ValidationException is re-raised; after a not-found describe, a successful create returns the name, a retryable create error returns None and any other create error is re-raised |
| `SageMakerDeploy.EndpointLoop` | sagemaker-auto-creation.py:127-167 | termination by max_retries - attempts; attempts never exceed max_retries; the create calls made equal the failures counted plus one when the endpoint was created |
| `SageMakerDeploy.CreateEndpoint` | sagemaker-auto-creation.py:120-167 | no call at all when max_retries <= 0; attempts stay within [0, max_retries] |
| `SageMakerDeploy.Main` | sagemaker-auto-creation.py:186-203 | the run starts with the config phase; a config-phase error exits 1 |
| `SageMakerProperties.LoopCleanupExactlyOnce` | sagemaker-auto-creation.py:156-165 | from any loop head, the delete appears once exactly when the loop aborts, right after the fatal create |
| `SageMakerProperties.CleanupExactlyOnce` | sagemaker-auto-creation.py:156-165 | a non-retryable create error is followed by exactly one delete of config_name and nothing else, and that create error is the one re-raised; no other ending deletes anything |
| `SageMakerProperties.LoopFirstSuccessReturns` | sagemaker-auto-creation.py:130-154 | from any loop head, a successful create is second to last and followed only by the publish |
| `SageMakerProperties.FirstSuccessReturns` | sagemaker-auto-creation.py:130-154 | the first successful create of model_name + "-endpoint" ends the loop, followed only by the notification attempt, with no delete; a success appears nowhere else |
| `SageMakerProperties.LoopSideEffectsChangeNothing` | sagemaker-auto-creation.py:139-165 | from any loop head, publish and delete outcomes do not change the exit, attempts or calls |
| `SageMakerProperties.SideEffectsChangeNothing` | sagemaker-auto-creation.py:139-165 | notification delivery and the delete's own success change neither the outcome (the re-raised error included) nor any create call or sleep |
| `SageMakerProperties.LoopOnlyRetryable` | sagemaker-auto-creation.py:128-167 | with only retryable errors, a loop head makes max_retries - attempts calls and as many sleeps, with no delete |
| `SageMakerProperties.OnlyRetryableErrors` | sagemaker-auto-creation.py:128-167 | with only retryable errors, exactly max_retries calls and sleeps (none when max_retries <= 0), no delete, and a normal return |
| `SageMakerProperties.LoopReadsInOrder` | sagemaker-auto-creation.py:130-167 | from a loop head after `attempts` failed calls, the k-th create call reads the provider's outcome for call `attempts + k` |
| `SageMakerProperties.CreateReadsInOrder` | sagemaker-auto-creation.py:130-167 | the outcomes of `create_endpoint`'s calls, in order, are the provider's outcomes for calls 0, 1, 2, ...: one fresh outcome per call |
| `SageMakerProperties.EndpointPhaseNeedsConfig` | sagemaker-auto-creation.py:186-200 | the endpoint phase runs only when the config phase returned a name, and then with model_name + "-config"; otherwise no endpoint call is made |
| `SageMakerProperties.DeletesOnlyOwnConfig` | sagemaker-auto-creation.py:90-165 | a whole run deletes at most once, exactly when the endpoint phase aborted after this run created the config, and only that config |
| `SageMakerProperties.ExitCode` | sagemaker-auto-creation.py:186-203 | exit code 1 exactly when some phase raised; a local config.json, an existing remote config, a retryable config-create failure, and an endpoint phase that returns normally (exhausted included) after a created config each exit 0 |
| `ClassifierProperties.SharedRetryCodes` | sagemaker-auto-creation.py:68-81 | compared with the EC2 table at ec2-auto-creatation.py:74-89, the two retry tables share only ServiceUnavailable, so classification depends on the resource kind |

## Left out

- Client construction and credentials (`create_ec2_client`, `create_sagemaker_client`, environment variables) are foreign library calls. Each AWS call becomes an abstract outcome instead.
- SNS client creation, topic, subject and message text are left out. A notification is only a delivered/not-delivered flag.
- Console output is left out, including the reason strings of the retry tables. Only the tables' keys decide control flow.
- `time.sleep` does not pass time in the model. Each sleep is an event carrying its duration.
- `os.path.exists('config.json')` is a boolean input.
- Request parameters (AMI, key pair, subnet, security groups, tags, production variants) are opaque constants with no logic. The instance type only reaches them and the log lines.
- Argument parsing and its defaults (count 1, interval 10, retries 10) are left out. `main` takes the parsed values as parameters.
- Exceptions other than `ClientError` from an AWS call are left out: network errors, or a malformed `run_instances` response making `response['Instances'][0]['InstanceId']` fail. These too escape the loops and make `main` exit 1.

=== FILE: classifiers.dfy ===
/**
 The two scripts classify errors with separate tables; this module relates them.
 */
module ClassifierProperties {
  import Ec2Launch
  import SageMakerDeploy

  /** The tables overlap in one code only, so the classifier is specific to the
      kind of resource: throttling is retried for endpoints but not for
      instances, and a capacity shortage or `Unsupported` the other way round. */
  lemma SharedRetryCodes(code: string)
    ensures Ec2Launch.HandleApiErrors(code) && SageMakerDeploy.HandleApiErrors(code)
            <==> code == "ServiceUnavailable"
    ensures Ec2Launch.HandleApiErrors("Unsupported") && !SageMakerDeploy.HandleApiErrors("Unsupported")
    ensures SageMakerDeploy.HandleApiErrors("ThrottlingException") && !Ec2Launch.HandleApiErrors("ThrottlingException")
    ensures !Ec2Launch.HandleApiErrors("ValidationException") && !SageMakerDeploy.HandleApiErrors("ValidationException")
  {
  }
}

=== FILE: ec2_launch.dfy ===
/**
 The control core of the EC2 script (ec2-auto-creatation.py): the error
 classifier, the two-counter launch loop and the count guard of `main`.

 Every `run_instances` call reads its outcome from an oracle indexed by call
 number; every SNS publish reads "delivered or not" from a second oracle
 indexed by the same number. A run returns the trace of what the script did
 together with the final loop counters and how the loop ended.
 */
module Ec2Launch {
  import opened Outcomes

  /** Keys of the `retry_errors` table: the error codes the script retries. */
  const RetryErrorCodes: set<string> :=
    {"IdempotentParameterMismatch", "InsufficientInstanceCapacity",
     "RequestLimitExceeded", "ServiceUnavailable", "Unsupported"}

  /** `handle_api_errors`: true when the client error is worth a retry. */
  function HandleApiErrors(code: string): (retry: bool)
    ensures retry <==>
              || code == "IdempotentParameterMismatch"
              || code == "InsufficientInstanceCapacity"
              || code == "RequestLimitExceeded"
              || code == "ServiceUnavailable"
              || code == "Unsupported"
  {
    code in RetryErrorCodes
  }

  /** What the script does that the outside world can observe. */
  datatype Event =
    | RunInstancesCall(outcome: ApiOutcome)
    | Publish(delivered: bool)
    | Sleep(seconds: int)

  predicate IsCall(e: Event) { e.RunInstancesCall? }
  predicate IsLaunch(e: Event) { e == RunInstancesCall(Ok) }
  predicate IsFailure(e: Event) { e.RunInstancesCall? && e.outcome.Err? }
  predicate IsRetryableFailure(e: Event) { IsFailure(e) && HandleApiErrors(e.outcome.code) }
  predicate IsFatalFailure(e: Event) { IsFailure(e) && !HandleApiErrors(e.outcome.code) }
  predicate IsSleep(e: Event) { e.Sleep? }
  predicate IsPublish(e: Event) { e.Publish? }

  /** The provider as seen by the loop: the outcome of the k-th `run_instances`
      call and whether the notification for that call was delivered. */
  datatype Provider = Provider(runInstances: Oracle, publish: nat -> bool)

  /** The arguments of `launch_instances` that shape its control flow (the
      instance type only reaches request parameters and log lines). */
  datatype LaunchArgs = LaunchArgs(targetCount: int, retryInterval: int, maxRetry: int)

  /** The loop counters `instances_remaining` and `retry_attempts`. */
  datatype Counters = Counters(remaining: int, attempts: int)

  /** One run of `launch_instances`: its trace, the counters when it stopped,
      and how it stopped. */
  datatype Run = Run(trace: seq<Event>, remaining: int, attempts: int, exit: LoopExit)

  /** The counters as a function of the history alone: a launch takes one unit
      off and clears the failure count, a failed call adds one failure, and
      notifications and sleeps touch neither. */
  function Tally(c: Counters, e: Event): Counters {
    match e
    case RunInstancesCall(Ok) => Counters(c.remaining - 1, 0)
    case RunInstancesCall(Err(_)) => Counters(c.remaining, c.attempts + 1)
    case _ => c
  }

  function Replay(c: Counters, trace: seq<Event>): Counters
    decreases |trace|
  {
    if trace == [] then c else Replay(Tally(c, trace[0]), trace[1..])
  }

  /** How a loop that leaves through its guard ends. */
  function GuardExit(remaining: int): LoopExit {
    if remaining > 0 then Exhausted else Done
  }

  /** Number of instances launched in `t`: the same number as
      `Count(t, IsLaunch)` (see `LaunchesIsCount`), written first-order because
      the solver unfolds it much more cheaply than the generic count, which
      takes a function value. */
  function Launches(t: seq<Event>): (n: nat)
    ensures n <= |t|
    decreases |t|
  {
    if t == [] then 0
    else (if IsLaunch(t[0]) then 1 else 0) + Launches(t[1..])
  }

  lemma {:induction false} LaunchesConcat(a: seq<Event>, b: seq<Event>)
    ensures Launches(a + b) == Launches(a) + Launches(b)
    decreases |a|
  {
    if a == [] {
      assert a + b == b;
    } else {
      assert (a + b)[1..] == a[1..] + b;
      LaunchesConcat(a[1..], b);
    }
  }

  lemma {:induction false} LaunchesIsCount(t: seq<Event>)
    ensures Launches(t) == Count(t, IsLaunch)
    decreases |t|
  {
    if t != [] {
      LaunchesIsCount(t[1..]);
    }
  }

  /** The `while` loop from a loop head whose counters satisfy the loop
      invariant; `calls` run_instances calls have been made so far. The
      lexicographic measure (remaining, maxRetry - attempts) bounds it. */
  function Loop(p: Provider, a: LaunchArgs, remaining: int, attempts: int, calls: nat): (r: Run)
    requires 0 <= remaining <= a.targetCount
    requires 0 <= attempts <= a.maxRetry
    ensures 0 <= r.remaining <= remaining
    ensures 0 <= r.attempts <= a.maxRetry
    ensures r.remaining == remaining - Launches(r.trace)
    ensures r.exit.Done? <==> r.remaining == 0
    ensures r.exit.Exhausted? ==> r.attempts == a.maxRetry
    ensures remaining == 0 ==> r.trace == []
    decreases remaining, a.maxRetry - attempts
  {
    if !(remaining > 0 && attempts < a.maxRetry) then
      Run([], remaining, attempts, GuardExit(remaining))
    else
      var outcome := p.runInstances(calls);
      match outcome
      case Ok =>
        var rest := Loop(p, a, remaining - 1, 0, calls + 1);
        var step := [RunInstancesCall(Ok), Publish(p.publish(calls))];
        LaunchesConcat(step, rest.trace);
        rest.(trace := step + rest.trace)
      case Err(code) =>
        if !HandleApiErrors(code) then
          Run([RunInstancesCall(outcome)], remaining, attempts + 1, Aborted(code))
        else if !SleepAccepts(a.retryInterval) then
          Run([RunInstancesCall(outcome)], remaining, attempts + 1, SleepRejected(a.retryInterval))
        else
          var rest := Loop(p, a, remaining, attempts + 1, calls + 1);
          var step := [RunInstancesCall(outcome), Sleep(a.retryInterval)];
          LaunchesConcat(step, rest.trace);
          rest.(trace := step + rest.trace)
  }

  /** `launch_instances`. The first evaluation of the loop guard is made here,
      so that `Loop` starts from a head where the invariant holds. */
  function LaunchInstances(p: Provider, a: LaunchArgs): (r: Run)
    ensures a.targetCount <= 0 || a.maxRetry <= 0 ==>
              r.trace == [] && r.remaining == a.targetCount && !r.exit.Raises()
    ensures a.targetCount >= 0 ==> 0 <= r.remaining <= a.targetCount
    ensures r.remaining == a.targetCount - Launches(r.trace)
    ensures r.exit.Done? <==> r.remaining <= 0
  {
    if a.targetCount > 0 && a.maxRetry > 0 then
      Loop(p, a, a.targetCount, 0, 0)
    else
      Run([], a.targetCount, 0, GuardExit(a.targetCount))
  }

  /** The observable result of `main`: what it did and the process exit code. */
  datatype CliRun = CliRun(trace: seq<Event>, exitCode: int)

  /** `main` without argument parsing: refuse a count below one, otherwise
      launch, and turn anything `launch_instances` raises into exit code 1. */
  function Main(p: Provider, count: int, retryInterval: int, maxRetry: int): (r: CliRun)
    ensures count < 1 ==> r == CliRun([], 1)
    ensures r.exitCode == 0 <==>
              count >= 1 && !LaunchInstances(p, LaunchArgs(count, retryInterval, maxRetry)).exit.Raises()
    ensures r.exitCode in {0, 1}
    ensures count >= 1 ==> r.trace == LaunchInstances(p, LaunchArgs(count, retryInterval, maxRetry)).trace
  {
    if count < 1 then
      CliRun([], 1)
    else
      var run := LaunchInstances(p, LaunchArgs(count, retryInterval, maxRetry));
      CliRun(run.trace, if run.exit.Raises() then 1 else 0)
  }
}

=== FILE: ec2_properties.dfy ===
/**
 Properties of the EC2 launch loop, stated over the trace a run produces.
 */
module Ec2Properties {
  import opened Outcomes
  import opened Ec2Launch

  lemma ReplayPair(c: Counters, x: Event, y: Event, rest: seq<Event>)
    ensures Replay(c, [x, y] + rest) == Replay(Tally(Tally(c, x), y), rest)
  {
    var t := [x, y] + rest;
    assert t[1..] == [y] + rest;
    assert ([y] + rest)[1..] == rest;
  }

  lemma ReplayOne(c: Counters, x: Event)
    ensures Replay(c, [x]) == Tally(c, x)
  {
    assert [x][1..] == [];
  }

  /** The final counters are exactly what the history says they should be:
      each launch took one unit off `remaining` and cleared `attempts`, each
      failed call (including the one that aborts) added one attempt, and a
      notification, delivered or not, changed neither. */
  lemma {:induction false} LoopCountersFollowTrace(p: Provider, a: LaunchArgs, remaining: int, attempts: int, calls: nat)
    requires 0 <= remaining <= a.targetCount && 0 <= attempts <= a.maxRetry
    ensures var r := Loop(p, a, remaining, attempts, calls);
            Replay(Counters(remaining, attempts), r.trace) == Counters(r.remaining, r.attempts)
    decreases remaining, a.maxRetry - attempts, 1
  {
    if remaining > 0 && attempts < a.maxRetry {
      if p.runInstances(calls).Ok? {
        CountersAfterLaunch(p, a, remaining, attempts, calls);
      } else {
        CountersAfterFailure(p, a, remaining, attempts, calls);
      }
    }
  }

  lemma {:induction false} CountersAfterLaunch(p: Provider, a: LaunchArgs, remaining: int, attempts: int, calls: nat)
    requires 0 < remaining <= a.targetCount && 0 <= attempts < a.maxRetry && p.runInstances(calls).Ok?
    ensures var r := Loop(p, a, remaining, attempts, calls);
            Replay(Counters(remaining, attempts), r.trace) == Counters(r.remaining, r.attempts)
    decreases remaining, a.maxRetry - attempts, 0
  {
    LoopCountersFollowTrace(p, a, remaining - 1, 0, calls + 1);
    var rest := Loop(p, a, remaining - 1, 0, calls + 1);
    ReplayPair(Counters(remaining, attempts), RunInstancesCall(Ok), Publish(p.publish(calls)), rest.trace);
  }

  lemma {:induction false} CountersAfterFailure(p: Provider, a: LaunchArgs, remaining: int, attempts: int, calls: nat)
    requires 0 < remaining <= a.targetCount && 0 <= attempts < a.maxRetry && p.runInstances(calls).Err?
    ensures var r := Loop(p, a, remaining, attempts, calls);
            Replay(Counters(remaining, attempts), r.trace) == Counters(r.remaining, r.attempts)
    decreases remaining, a.maxRetry - attempts, 0
  {
    var code := p.runInstances(calls).code;
    if HandleApiErrors(code) && SleepAccepts(a.retryInterval) {
      LoopCountersFollowTrace(p, a, remaining, attempts + 1, calls + 1);
      var rest := Loop(p, a, remaining, attempts + 1, calls + 1);
      ReplayPair(Counters(remaining, attempts), RunInstancesCall(Err(code)), Sleep(a.retryInterval), rest.trace);
    } else {
      ReplayOne(Counters(remaining, attempts), RunInstancesCall(Err(code)));
    }
  }

  lemma CountersFollowTrace(p: Provider, a: LaunchArgs)
    ensures var r := LaunchInstances(p, a);
            Replay(Counters(a.targetCount, 0), r.trace) == Counters(r.remaining, r.attempts)
  {
    if a.targetCount > 0 && a.maxRetry > 0 {
      LoopCountersFollowTrace(p, a, a.targetCount, 0, 0);
    }
  }

  /** Arithmetic step for `LoopCallBound`. */
  lemma MulPred(n: int, m: int)
    requires n >= 1 && m >= 0
    ensures (n - 1) * m == n * m - m
    ensures n * m >= m
  {
  }

  /** From a loop head with units left, at most `maxRetry - attempts` calls are
      spent on the current unit and at most `maxRetry` on each later one. */
  lemma {:induction false} LoopCallBound(p: Provider, a: LaunchArgs, remaining: int, attempts: int, calls: nat)
    requires 0 <= remaining <= a.targetCount && 0 <= attempts <= a.maxRetry
    requires remaining > 0
    ensures Count(Loop(p, a, remaining, attempts, calls).trace, IsCall) <= remaining * a.maxRetry - attempts
    decreases remaining, a.maxRetry - attempts, 1
  {
    if attempts < a.maxRetry {
      if p.runInstances(calls).Ok? {
        CallBoundAfterLaunch(p, a, remaining, attempts, calls);
      } else {
        CallBoundAfterFailure(p, a, remaining, attempts, calls);
      }
    } else {
      MulPred(remaining, a.maxRetry);
    }
  }

  lemma {:induction false} CallBoundAfterLaunch(p: Provider, a: LaunchArgs, remaining: int, attempts: int, calls: nat)
    requires 0 < remaining <= a.targetCount && 0 <= attempts < a.maxRetry && p.runInstances(calls).Ok?
    ensures Count(Loop(p, a, remaining, attempts, calls).trace, IsCall) <= remaining * a.maxRetry - attempts
    decreases remaining, a.maxRetry - attempts, 0
  {
    MulPred(remaining, a.maxRetry);
    var rest := Loop(p, a, remaining - 1, 0, calls + 1);
    CountPair(RunInstancesCall(Ok), Publish(p.publish(calls)), rest.trace, IsCall);
    if remaining > 1 {
      LoopCallBound(p, a, remaining - 1, 0, calls + 1);
    } else {
      assert rest.trace == [];
    }
  }

  lemma {:induction false} CallBoundAfterFailure(p: Provider, a: LaunchArgs, remaining: int, attempts: int, calls: nat)
    requires 0 < remaining <= a.targetCount && 0 <= attempts < a.maxRetry && p.runInstances(calls).Err?
    ensures Count(Loop(p, a, remaining, attempts, calls).trace, IsCall) <= remaining * a.maxRetry - attempts
    decreases remaining, a.maxRetry - attempts, 0
  {
    MulPred(remaining, a.maxRetry);
    var code := p.runInstances(calls).code;
    if HandleApiErrors(code) && SleepAccepts(a.retryInterval) {
      LoopCallBound(p, a, remaining, attempts + 1, calls + 1);
      var rest := Loop(p, a, remaining, attempts + 1, calls + 1);
      CountPair(RunInstancesCall(Err(code)), Sleep(a.retryInterval), rest.trace, IsCall);
    } else {
      CountOne(RunInstancesCall(Err(code)), IsCall);
    }
  }

  /** No run issues more than `target_count * max_retry` create calls, and none
      at all when either is not positive. */
  lemma CallBound(p: Provider, a: LaunchArgs)
    ensures Count(LaunchInstances(p, a).trace, IsCall)
            <= if a.targetCount > 0 && a.maxRetry > 0 then a.targetCount * a.maxRetry else 0
  {
    if a.targetCount > 0 && a.maxRetry > 0 {
      LoopCallBound(p, a, a.targetCount, 0, 0);
    }
  }

  /** `main` issues at most `count * max_retry` create calls, and none at all
      for a count below one or a budget that is not positive. */
  lemma MainCallBound(p: Provider, count: int, retryInterval: int, maxRetry: int)
    ensures var r := Main(p, count, retryInterval, maxRetry);
            Count(r.trace, IsCall) <= if count >= 1 && maxRetry > 0 then count * maxRetry else 0
  {
    CallBound(p, LaunchArgs(count, retryInterval, maxRetry));
  }

  /** The outcomes of the `run_instances` calls in `t`, in the order they
      were made. */
  function CallOutcomes(t: seq<Event>): (o: seq<ApiOutcome>)
    ensures |o| == Count(t, IsCall)
    decreases |t|
  {
    if t == [] then []
    else (if IsCall(t[0]) then [t[0].outcome] else []) + CallOutcomes(t[1..])
  }

  lemma CallOutcomesPair(x: Event, y: Event, rest: seq<Event>)
    requires IsCall(x) && !IsCall(y)
    ensures CallOutcomes([x, y] + rest) == [x.outcome] + CallOutcomes(rest)
  {
    var t := [x, y] + rest;
    assert t[1..] == [y] + rest;
    assert ([y] + rest)[1..] == rest;
  }

  lemma CallOutcomesOne(x: Event)
    requires IsCall(x)
    ensures CallOutcomes([x]) == [x.outcome]
  {
    assert [x][1..] == [];
  }

  /** The loop reads the provider in order: the k-th `run_instances` call made
      from a loop head sees the outcome scripted for call `calls + k`, whichever
      unit it is spent on. */
  lemma {:induction false} LoopReadsInOrder(p: Provider, a: LaunchArgs, remaining: int, attempts: int, calls: nat)
    requires 0 <= remaining <= a.targetCount && 0 <= attempts <= a.maxRetry
    ensures ReadsInOrder(CallOutcomes(Loop(p, a, remaining, attempts, calls).trace), p.runInstances, calls)
    decreases remaining, a.maxRetry - attempts, 1
  {
    if remaining > 0 && attempts < a.maxRetry {
      if p.runInstances(calls).Ok? {
        ReadsInOrderAfterLaunch(p, a, remaining, attempts, calls);
      } else {
        ReadsInOrderAfterFailure(p, a, remaining, attempts, calls);
      }
    }
  }

  lemma {:induction false} ReadsInOrderAfterLaunch(p: Provider, a: LaunchArgs, remaining: int, attempts: int, calls: nat)
    requires 0 < remaining <= a.targetCount && 0 <= attempts < a.maxRetry && p.runInstances(calls).Ok?
    ensures ReadsInOrder(CallOutcomes(Loop(p, a, remaining, attempts, calls).trace), p.runInstances, calls)
    decreases remaining, a.maxRetry - attempts, 0
  {
    LoopReadsInOrder(p, a, remaining - 1, 0, calls + 1);
    var rest := Loop(p, a, remaining - 1, 0, calls + 1);
    CallOutcomesPair(RunInstancesCall(Ok), Publish(p.publish(calls)), rest.trace);
    ReadStep(Ok, CallOutcomes(rest.trace), p.runInstances, calls);
  }

  lemma {:induction false} ReadsInOrderAfterFailure(p: Provider, a: LaunchArgs, remaining: int, attempts: int, calls: nat)
    requires 0 < remaining <= a.targetCount && 0 <= attempts < a.maxRetry && p.runInstances(calls).Err?
    ensures ReadsInOrder(CallOutcomes(Loop(p, a, remaining, attempts, calls).trace), p.runInstances, calls)
    decreases remaining, a.maxRetry - attempts, 0
  {
    var outcome := p.runInstances(calls);
    if HandleApiErrors(outcome.code) && SleepAccepts(a.retryInterval) {
      LoopReadsInOrder(p, a, remaining, attempts + 1, calls + 1);
      var rest := Loop(p, a, remaining, attempts + 1, calls + 1);
      CallOutcomesPair(RunInstancesCall(outcome), Sleep(a.retryInterval), rest.trace);
      ReadStep(outcome, CallOutcomes(rest.trace), p.runInstances, calls);
    } else {
      CallOutcomesOne(RunInstancesCall(outcome));
      ReadStep(outcome, [], p.runInstances, calls);
    }
  }

  /** A whole run (and so `main`) reads `run_instances` outcomes 0, 1, 2, ...
      in order, one per call it makes. */
  lemma RunReadsInOrder(p: Provider, a: LaunchArgs)
    ensures ReadsInOrder(CallOutcomes(LaunchInstances(p, a).trace), p.runInstances, 0)
  {
    if a.targetCount > 0 && a.maxRetry > 0 {
      LoopReadsInOrder(p, a, a.targetCount, 0, 0);
    }
  }

  /** One launch followed by a non-retryable error: with two instances asked
      for and a budget of one, `main` launches one instance, re-raises the
      second call's error and exits 1. */
  lemma LaunchThenFatalExitsOne()
    ensures var p := Provider(k => if k == 0 then Ok else Err("InvalidParameterValue"), k => true);
            var r := Main(p, 2, 10, 1);
            && r.exitCode == 1
            && r.trace == [RunInstancesCall(Ok), Publish(true), RunInstancesCall(Err("InvalidParameterValue"))]
  {
  }

  /** A non-retryable failure in `t` can only be its last event and fixes the
      exit `x`; an `Aborted` exit has such a last event. */
  ghost predicate AbortEndsTrace(t: seq<Event>, x: LoopExit) {
    && (forall i :: 0 <= i < |t| && IsFatalFailure(t[i]) ==> i == |t| - 1 && x == Aborted(t[i].outcome.code))
    && (x.Aborted? ==> |t| > 0 && IsFatalFailure(t[|t| - 1]) && t[|t| - 1].outcome.code == x.code)
  }

  lemma PairKeepsAbortLast(e0: Event, e1: Event, rest: seq<Event>, x: LoopExit)
    requires !IsFatalFailure(e0) && !IsFatalFailure(e1) && AbortEndsTrace(rest, x)
    ensures AbortEndsTrace([e0, e1] + rest, x)
  {
    PairIndex(e0, e1, rest);
  }

  lemma {:induction false} LoopAbortIsLast(p: Provider, a: LaunchArgs, remaining: int, attempts: int, calls: nat)
    requires 0 <= remaining <= a.targetCount && 0 <= attempts <= a.maxRetry
    ensures AbortEndsTrace(Loop(p, a, remaining, attempts, calls).trace, Loop(p, a, remaining, attempts, calls).exit)
    decreases remaining, a.maxRetry - attempts, 1
  {
    if remaining > 0 && attempts < a.maxRetry {
      if p.runInstances(calls).Ok? {
        AbortIsLastAfterLaunch(p, a, remaining, attempts, calls);
      } else {
        AbortIsLastAfterFailure(p, a, remaining, attempts, calls);
      }
    }
  }

  lemma {:induction false} AbortIsLastAfterLaunch(p: Provider, a: LaunchArgs, remaining: int, attempts: int, calls: nat)
    requires 0 < remaining <= a.targetCount && 0 <= attempts < a.maxRetry && p.runInstances(calls).Ok?
    ensures AbortEndsTrace(Loop(p, a, remaining, attempts, calls).trace, Loop(p, a, remaining, attempts, calls).exit)
    decreases remaining, a.maxRetry - attempts, 0
  {
    LoopAbortIsLast(p, a, remaining - 1, 0, calls + 1);
    var rest := Loop(p, a, remaining - 1, 0, calls + 1);
    PairKeepsAbortLast(RunInstancesCall(Ok), Publish(p.publish(calls)), rest.trace, rest.exit);
  }

  lemma {:induction false} AbortIsLastAfterFailure(p: Provider, a: LaunchArgs, remaining: int, attempts: int, calls: nat)
    requires 0 < remaining <= a.targetCount && 0 <= attempts < a.maxRetry && p.runInstances(calls).Err?
    ensures AbortEndsTrace(Loop(p, a, remaining, attempts, calls).trace, Loop(p, a, remaining, attempts, calls).exit)
    decreases remaining, a.maxRetry - attempts, 0
  {
    var code := p.runInstances(calls).code;
    if HandleApiErrors(code) && SleepAccepts(a.retryInterval) {
      LoopAbortIsLast(p, a, remaining, attempts + 1, calls + 1);
      var rest := Loop(p, a, remaining, attempts + 1, calls + 1);
      PairKeepsAbortLast(RunInstancesCall(Err(code)), Sleep(a.retryInterval), rest.trace, rest.exit);
    } else {
      assert Loop(p, a, remaining, attempts, calls).trace == [RunInstancesCall(Err(code))];
    }
  }

  /** A non-retryable error ends the run at once: it is the last event (no sleep
      and no further call follow), it is the error the run re-raises, and a run
      re-raises a client error only in this way. */
  lemma AbortIsLast(p: Provider, a: LaunchArgs)
    ensures var r := LaunchInstances(p, a);
            && (forall i :: 0 <= i < |r.trace| && IsFatalFailure(r.trace[i]) ==>
                  i == |r.trace| - 1 && r.exit == Aborted(r.trace[i].outcome.code))
            && (r.exit.Aborted? ==>
                  |r.trace| > 0 && IsFatalFailure(r.trace[|r.trace| - 1])
                  && r.trace[|r.trace| - 1].outcome.code == r.exit.code)
  {
    if a.targetCount > 0 && a.maxRetry > 0 {
      LoopAbortIsLast(p, a, a.targetCount, 0, 0);
    }
  }

  /** With a usable interval, every retryable failure (the exhausting one
      included) is followed by exactly one sleep, every sleep follows a
      retryable failure, and every sleep lasts the same `retry_interval`: the
      delay never grows. */
  ghost predicate SleepsPairWithRetries(t: seq<Event>, interval: int) {
    && (forall i :: 0 <= i < |t| && IsRetryableFailure(t[i]) ==> i + 1 < |t| && t[i + 1] == Sleep(interval))
    && (forall i :: 0 <= i < |t| && IsSleep(t[i]) ==> 0 < i && IsRetryableFailure(t[i - 1]) && t[i].seconds == interval)
    && Count(t, IsSleep) == Count(t, IsRetryableFailure)
  }

  lemma PairPreservesSleepPairing(x: Event, y: Event, rest: seq<Event>, interval: int)
    requires SleepsPairWithRetries(rest, interval)
    requires (IsRetryableFailure(x) && y == Sleep(interval)) || (x == RunInstancesCall(Ok) && y.Publish?)
    ensures SleepsPairWithRetries([x, y] + rest, interval)
  {
    var t := [x, y] + rest;
    CountPair(x, y, rest, IsSleep);
    CountPair(x, y, rest, IsRetryableFailure);
    forall i | 0 <= i < |t| && IsSleep(t[i])
      ensures 0 < i && IsRetryableFailure(t[i - 1]) && t[i].seconds == interval
    {
      if i >= 2 {
        assert t[i] == rest[i - 2];
        if i > 2 {
          assert t[i - 1] == rest[i - 3];
        }
      }
    }
    forall i | 0 <= i < |t| && IsRetryableFailure(t[i])
      ensures i + 1 < |t| && t[i + 1] == Sleep(interval)
    {
      if i >= 2 {
        assert t[i] == rest[i - 2];
        assert t[i + 1] == rest[i - 1];
      }
    }
  }

  lemma {:induction false} LoopSleepsPaired(p: Provider, a: LaunchArgs, remaining: int, attempts: int, calls: nat)
    requires 0 <= remaining <= a.targetCount && 0 <= attempts <= a.maxRetry
    requires SleepAccepts(a.retryInterval)
    ensures SleepsPairWithRetries(Loop(p, a, remaining, attempts, calls).trace, a.retryInterval)
    decreases remaining, a.maxRetry - attempts, 1
  {
    if remaining > 0 && attempts < a.maxRetry {
      if p.runInstances(calls).Ok? {
        SleepsPairedAfterLaunch(p, a, remaining, attempts, calls);
      } else {
        SleepsPairedAfterFailure(p, a, remaining, attempts, calls);
      }
    }
  }

  lemma {:induction false} SleepsPairedAfterLaunch(p: Provider, a: LaunchArgs, remaining: int, attempts: int, calls: nat)
    requires 0 < remaining <= a.targetCount && 0 <= attempts < a.maxRetry && p.runInstances(calls).Ok? && SleepAccepts(a.retryInterval)
    ensures SleepsPairWithRetries(Loop(p, a, remaining, attempts, calls).trace, a.retryInterval)
    decreases remaining, a.maxRetry - attempts, 0
  {
    LoopSleepsPaired(p, a, remaining - 1, 0, calls + 1);
    var rest := Loop(p, a, remaining - 1, 0, calls + 1);
    PairPreservesSleepPairing(RunInstancesCall(Ok), Publish(p.publish(calls)), rest.trace, a.retryInterval);
  }

  lemma {:induction false} SleepsPairedAfterFailure(p: Provider, a: LaunchArgs, remaining: int, attempts: int, calls: nat)
    requires 0 < remaining <= a.targetCount && 0 <= attempts < a.maxRetry && p.runInstances(calls).Err? && SleepAccepts(a.retryInterval)
    ensures SleepsPairWithRetries(Loop(p, a, remaining, attempts, calls).trace, a.retryInterval)
    decreases remaining, a.maxRetry - attempts, 0
  {
    var code := p.runInstances(calls).code;
    if HandleApiErrors(code) {
      LoopSleepsPaired(p, a, remaining, attempts + 1, calls + 1);
      var rest := Loop(p, a, remaining, attempts + 1, calls + 1);
      PairPreservesSleepPairing(RunInstancesCall(Err(code)), Sleep(a.retryInterval), rest.trace, a.retryInterval);
    } else {
      CountOne(RunInstancesCall(Err(code)), IsSleep);
      CountOne(RunInstancesCall(Err(code)), IsRetryableFailure);
    }
  }

  lemma {:induction false} LoopSleepRejected(p: Provider, a: LaunchArgs, remaining: int, attempts: int, calls: nat)
    requires 0 <= remaining <= a.targetCount && 0 <= attempts <= a.maxRetry
    requires !SleepAccepts(a.retryInterval)
    ensures var r := Loop(p, a, remaining, attempts, calls);
            && Count(r.trace, IsSleep) == 0
            && (Count(r.trace, IsRetryableFailure) > 0 ==> r.exit == SleepRejected(a.retryInterval))
            && Count(r.trace, IsRetryableFailure) <= 1
            && (Count(r.trace, IsRetryableFailure) == 1 ==> IsRetryableFailure(r.trace[|r.trace| - 1]))
    decreases remaining, a.maxRetry - attempts, 1
  {
    if remaining > 0 && attempts < a.maxRetry {
      if p.runInstances(calls).Ok? {
        SleepRejectedAfterLaunch(p, a, remaining, attempts, calls);
      } else {
        var code := p.runInstances(calls).code;
        CountOne(RunInstancesCall(Err(code)), IsSleep);
        CountOne(RunInstancesCall(Err(code)), IsRetryableFailure);
      }
    }
  }

  lemma {:induction false} SleepRejectedAfterLaunch(p: Provider, a: LaunchArgs, remaining: int, attempts: int, calls: nat)
    requires 0 < remaining <= a.targetCount && 0 <= attempts < a.maxRetry && p.runInstances(calls).Ok? && !SleepAccepts(a.retryInterval)
    ensures var r := Loop(p, a, remaining, attempts, calls);
            && Count(r.trace, IsSleep) == 0
            && (Count(r.trace, IsRetryableFailure) > 0 ==> r.exit == SleepRejected(a.retryInterval))
            && Count(r.trace, IsRetryableFailure) <= 1
            && (Count(r.trace, IsRetryableFailure) == 1 ==> IsRetryableFailure(r.trace[|r.trace| - 1]))
    decreases remaining, a.maxRetry - attempts, 0
  {
    LoopSleepRejected(p, a, remaining - 1, 0, calls + 1);
    var rest := Loop(p, a, remaining - 1, 0, calls + 1);
    CountPair(RunInstancesCall(Ok), Publish(p.publish(calls)), rest.trace, IsSleep);
    CountPair(RunInstancesCall(Ok), Publish(p.publish(calls)), rest.trace, IsRetryableFailure);
    PairIndex(RunInstancesCall(Ok), Publish(p.publish(calls)), rest.trace);
  }

  lemma Sleeps(p: Provider, a: LaunchArgs)
    ensures var r := LaunchInstances(p, a);
            && (SleepAccepts(a.retryInterval) ==> SleepsPairWithRetries(r.trace, a.retryInterval))
            && (!SleepAccepts(a.retryInterval) ==>
                  Count(r.trace, IsSleep) == 0
                  && (Count(r.trace, IsRetryableFailure) > 0 ==> r.exit == SleepRejected(a.retryInterval))
                  && Count(r.trace, IsRetryableFailure) <= 1
                  && (Count(r.trace, IsRetryableFailure) == 1 ==> IsRetryableFailure(r.trace[|r.trace| - 1])))
  {
    if a.targetCount > 0 && a.maxRetry > 0 {
      if SleepAccepts(a.retryInterval) {
        LoopSleepsPaired(p, a, a.targetCount, 0, 0);
      } else {
        LoopSleepRejected(p, a, a.targetCount, 0, 0);
      }
    }
  }

  /** Every call fails with a retryable error. */
  ghost predicate AlwaysRetryable(p: Provider) {
    forall k :: p.runInstances(k).Err? && HandleApiErrors(p.runInstances(k).code)
  }

  lemma {:induction false} LoopOnlyRetryable(p: Provider, a: LaunchArgs, remaining: int, attempts: int, calls: nat)
    requires 0 <= remaining <= a.targetCount && 0 <= attempts <= a.maxRetry && remaining > 0
    requires AlwaysRetryable(p) && SleepAccepts(a.retryInterval)
    ensures var r := Loop(p, a, remaining, attempts, calls);
            && Count(r.trace, IsCall) == a.maxRetry - attempts
            && Count(r.trace, IsSleep) == a.maxRetry - attempts
            && r.exit == Exhausted && r.remaining == remaining && r.attempts == a.maxRetry
    decreases a.maxRetry - attempts
  {
    if attempts < a.maxRetry {
      var code := p.runInstances(calls).code;
      assert p.runInstances(calls) == Err(code) && HandleApiErrors(code);
      LoopOnlyRetryable(p, a, remaining, attempts + 1, calls + 1);
      var rest := Loop(p, a, remaining, attempts + 1, calls + 1);
      assert Loop(p, a, remaining, attempts, calls) == rest.(trace := [RunInstancesCall(Err(code)), Sleep(a.retryInterval)] + rest.trace);
      CountPair(RunInstancesCall(Err(code)), Sleep(a.retryInterval), rest.trace, IsCall);
      CountPair(RunInstancesCall(Err(code)), Sleep(a.retryInterval), rest.trace, IsSleep);
    }
  }

  /** With nothing but retryable errors the loop makes exactly `max_retry` calls
      and `max_retry` sleeps, then returns normally with no instance launched. */
  lemma OnlyRetryableErrors(p: Provider, a: LaunchArgs)
    requires AlwaysRetryable(p)
    requires a.targetCount >= 1 && a.maxRetry >= 1 && SleepAccepts(a.retryInterval)
    ensures var r := LaunchInstances(p, a);
            && Count(r.trace, IsCall) == a.maxRetry
            && Count(r.trace, IsSleep) == a.maxRetry
            && r.exit == Exhausted && !r.exit.Raises()
            && r.remaining == a.targetCount && r.attempts == a.maxRetry
  {
    LoopOnlyRetryable(p, a, a.targetCount, 0, 0);
  }

  /** Every call succeeds. */
  ghost predicate AlwaysOk(p: Provider) {
    forall k :: p.runInstances(k) == Ok
  }

  lemma {:induction false} LoopOnlySuccesses(p: Provider, a: LaunchArgs, remaining: int, calls: nat)
    requires 0 <= remaining <= a.targetCount && a.maxRetry >= 1
    requires AlwaysOk(p)
    ensures var r := Loop(p, a, remaining, 0, calls);
            && Count(r.trace, IsCall) == remaining
            && Count(r.trace, IsPublish) == remaining
            && Count(r.trace, IsSleep) == 0
            && r.exit == Done && r.remaining == 0
    decreases remaining
  {
    if remaining > 0 {
      LoopOnlySuccesses(p, a, remaining - 1, calls + 1);
      var rest := Loop(p, a, remaining - 1, 0, calls + 1);
      var d := Publish(p.publish(calls));
      CountPair(RunInstancesCall(Ok), d, rest.trace, IsCall);
      CountPair(RunInstancesCall(Ok), d, rest.trace, IsPublish);
      CountPair(RunInstancesCall(Ok), d, rest.trace, IsSleep);
    }
  }

  /** With nothing but successes the loop makes exactly `target_count` calls,
      one notification attempt per launch and no sleep. */
  lemma OnlySuccesses(p: Provider, a: LaunchArgs)
    requires AlwaysOk(p)
    requires a.targetCount >= 1 && a.maxRetry >= 1
    ensures var r := LaunchInstances(p, a);
            && Count(r.trace, IsCall) == a.targetCount
            && Count(r.trace, IsPublish) == a.targetCount
            && Count(r.trace, IsSleep) == 0
            && r.exit == Done && r.remaining == 0
  {
    LoopOnlySuccesses(p, a, a.targetCount, 0);
  }

  /** Two traces that differ at most in whether notifications were delivered. */
  ghost predicate SameButPublish(t1: seq<Event>, t2: seq<Event>) {
    && |t1| == |t2|
    && forall i :: 0 <= i < |t1| ==> t1[i] == t2[i] || (t1[i].Publish? && t2[i].Publish?)
  }

  lemma {:induction false} LoopNotificationChangesNothing(p1: Provider, p2: Provider, a: LaunchArgs, remaining: int, attempts: int, calls: nat)
    requires 0 <= remaining <= a.targetCount && 0 <= attempts <= a.maxRetry
    requires p1.runInstances == p2.runInstances
    ensures var r1 := Loop(p1, a, remaining, attempts, calls);
            var r2 := Loop(p2, a, remaining, attempts, calls);
            && r1.remaining == r2.remaining && r1.attempts == r2.attempts && r1.exit == r2.exit
            && SameButPublish(r1.trace, r2.trace)
    decreases remaining, a.maxRetry - attempts, 1
  {
    if remaining > 0 && attempts < a.maxRetry {
      assert p1.runInstances(calls) == p2.runInstances(calls);
      if p1.runInstances(calls).Ok? {
        NotificationAfterLaunch(p1, p2, a, remaining, attempts, calls);
      } else {
        NotificationAfterFailure(p1, p2, a, remaining, attempts, calls);
      }
    }
  }

  lemma {:induction false} NotificationAfterLaunch(p1: Provider, p2: Provider, a: LaunchArgs, remaining: int, attempts: int, calls: nat)
    requires 0 < remaining <= a.targetCount && 0 <= attempts < a.maxRetry
    requires p1.runInstances == p2.runInstances && p1.runInstances(calls).Ok?
    ensures var r1 := Loop(p1, a, remaining, attempts, calls);
            var r2 := Loop(p2, a, remaining, attempts, calls);
            && r1.remaining == r2.remaining && r1.attempts == r2.attempts && r1.exit == r2.exit
            && SameButPublish(r1.trace, r2.trace)
    decreases remaining, a.maxRetry - attempts, 0
  {
    assert p2.runInstances(calls).Ok?;
    LoopNotificationChangesNothing(p1, p2, a, remaining - 1, 0, calls + 1);
  }

  lemma {:induction false} NotificationAfterFailure(p1: Provider, p2: Provider, a: LaunchArgs, remaining: int, attempts: int, calls: nat)
    requires 0 < remaining <= a.targetCount && 0 <= attempts < a.maxRetry
    requires p1.runInstances == p2.runInstances && p1.runInstances(calls).Err?
    ensures var r1 := Loop(p1, a, remaining, attempts, calls);
            var r2 := Loop(p2, a, remaining, attempts, calls);
            && r1.remaining == r2.remaining && r1.attempts == r2.attempts && r1.exit == r2.exit
            && SameButPublish(r1.trace, r2.trace)
    decreases remaining, a.maxRetry - attempts, 0
  {
    assert p2.runInstances(calls) == p1.runInstances(calls);
    if HandleApiErrors(p1.runInstances(calls).code) && SleepAccepts(a.retryInterval) {
      LoopNotificationChangesNothing(p1, p2, a, remaining, attempts + 1, calls + 1);
    }
  }

  /** A failed notification changes neither counter, nor the outcome, nor any
      call or sleep the script makes. */
  lemma NotificationChangesNothing(p1: Provider, p2: Provider, a: LaunchArgs)
    requires p1.runInstances == p2.runInstances
    ensures var r1 := LaunchInstances(p1, a);
            var r2 := LaunchInstances(p2, a);
            && r1.remaining == r2.remaining && r1.attempts == r2.attempts && r1.exit == r2.exit
            && SameButPublish(r1.trace, r2.trace)
  {
    if a.targetCount > 0 && a.maxRetry > 0 {
      LoopNotificationChangesNothing(p1, p2, a, a.targetCount, 0, 0);
    }
  }

  /** The events after the last launch of `t`: the attempts spent on the unit
      still pending (all of `t` when nothing was launched). */
  function AfterLastLaunch(t: seq<Event>): (r: seq<Event>)
    ensures |r| <= |t| && Launches(r) == 0
    decreases |t|
  {
    if t == [] then []
    else if Launches(t[1..]) > 0 then AfterLastLaunch(t[1..])
    else if IsLaunch(t[0]) then t[1..]
    else t
  }

  /** `AfterLastLaunch` cuts `t` right after its last launch: what it returns is
      a suffix of `t` with no launch, preceded in `t` by a launch unless it is
      all of `t`. */
  lemma {:induction false} AfterLastLaunchIsSuffix(t: seq<Event>)
    ensures var u := AfterLastLaunch(t);
            && u == t[|t| - |u|..]
            && (|u| < |t| ==> IsLaunch(t[|t| - |u| - 1]))
    decreases |t|
  {
    if t != [] && Launches(t[1..]) > 0 {
      AfterLastLaunchIsSuffix(t[1..]);
      var u := AfterLastLaunch(t[1..]);
      assert t[1..][|t[1..]| - |u|..] == t[|t| - |u|..];
      if |u| < |t[1..]| {
        assert t[1..][|t[1..]| - |u| - 1] == t[|t| - |u| - 1];
      }
    }
  }

  /** `u` holds `n` create calls, each a retryable failure. */
  ghost predicate RetriedCalls(u: seq<Event>, n: int) {
    && Count(u, IsCall) == n
    && forall i :: 0 <= i < |u| && IsCall(u[i]) ==> IsRetryableFailure(u[i])
  }

  lemma AfterPair(x: Event, y: Event, rest: seq<Event>)
    ensures Launches(rest) > 0 ==> AfterLastLaunch([x, y] + rest) == AfterLastLaunch(rest)
    ensures Launches(rest) == 0 && !IsLaunch(y) ==>
              AfterLastLaunch([x, y] + rest) == if IsLaunch(x) then [y] + rest else [x, y] + rest
  {
    var t := [x, y] + rest;
    assert t[1..] == [y] + rest;
    assert ([y] + rest)[1..] == rest;
    LaunchesConcat([x, y], rest);
  }

  /** A launch followed by its notification closes the pending unit: what
      follows is judged on its own. */
  lemma LaunchStepBudget(d: Event, rest: seq<Event>, m: int)
    requires d.Publish? && RetriedCalls(AfterLastLaunch(rest), m)
    ensures Launches([RunInstancesCall(Ok), d] + rest) > 0
    ensures RetriedCalls(AfterLastLaunch([RunInstancesCall(Ok), d] + rest), m)
  {
    AfterPair(RunInstancesCall(Ok), d, rest);
    LaunchesConcat([RunInstancesCall(Ok), d], rest);
    if Launches(rest) == 0 {
      var u := [d] + rest;
      assert AfterLastLaunch(rest) == rest;
      CountConcat([d], rest, IsCall);
      assert forall i :: 1 <= i < |u| ==> u[i] == rest[i - 1];
    }
  }

  /** A retryable failure and its sleep add one call to the pending unit when
      nothing later is launched, and leave the last unit alone otherwise. */
  lemma RetryStepBudget(f: Event, s: Event, rest: seq<Event>, m: int, k: int)
    requires IsRetryableFailure(f) && s.Sleep?
    requires RetriedCalls(AfterLastLaunch(rest), if Launches(rest) > 0 then m else k)
    ensures var t := [f, s] + rest;
            RetriedCalls(AfterLastLaunch(t), if Launches(t) > 0 then m else k + 1)
  {
    AfterPair(f, s, rest);
    LaunchesConcat([f, s], rest);
    if Launches(rest) == 0 {
      assert AfterLastLaunch(rest) == rest;
      CountPair(f, s, rest, IsCall);
      PairIndex(f, s, rest);
    }
  }

  /** Whenever the budget runs out, the unit still pending got exactly
      `max_retry` calls, every one a retryable failure, however many failures the
      units launched before it needed: the failure count is per unit. */
  lemma {:induction false} LoopBudgetPerUnit(p: Provider, a: LaunchArgs, remaining: int, attempts: int, calls: nat)
    requires 0 <= remaining <= a.targetCount && 0 <= attempts <= a.maxRetry
    ensures var r := Loop(p, a, remaining, attempts, calls);
            r.exit == Exhausted ==>
              RetriedCalls(AfterLastLaunch(r.trace), a.maxRetry - (if Launches(r.trace) > 0 then 0 else attempts))
    decreases remaining, a.maxRetry - attempts, 1
  {
    if remaining > 0 && attempts < a.maxRetry {
      if p.runInstances(calls).Ok? {
        BudgetAfterLaunch(p, a, remaining, attempts, calls);
      } else {
        BudgetAfterFailure(p, a, remaining, attempts, calls);
      }
    }
  }

  /** `LoopBudgetPerUnit` for a loop head whose call launches an instance. */
  lemma {:induction false} BudgetAfterLaunch(p: Provider, a: LaunchArgs, remaining: int, attempts: int, calls: nat)
    requires 0 < remaining <= a.targetCount && 0 <= attempts < a.maxRetry && p.runInstances(calls).Ok?
    ensures var r := Loop(p, a, remaining, attempts, calls);
            r.exit == Exhausted ==> RetriedCalls(AfterLastLaunch(r.trace), a.maxRetry)
    decreases remaining, a.maxRetry - attempts, 0
  {
    LoopBudgetPerUnit(p, a, remaining - 1, 0, calls + 1);
    var rest := Loop(p, a, remaining - 1, 0, calls + 1);
    if rest.exit == Exhausted {
      LaunchStepBudget(Publish(p.publish(calls)), rest.trace, a.maxRetry);
    }
  }

  /** `LoopBudgetPerUnit` for a loop head whose call fails. */
  lemma {:induction false} BudgetAfterFailure(p: Provider, a: LaunchArgs, remaining: int, attempts: int, calls: nat)
    requires 0 < remaining <= a.targetCount && 0 <= attempts < a.maxRetry && p.runInstances(calls).Err?
    ensures var r := Loop(p, a, remaining, attempts, calls);
            r.exit == Exhausted ==>
              RetriedCalls(AfterLastLaunch(r.trace), a.maxRetry - (if Launches(r.trace) > 0 then 0 else attempts))
    decreases remaining, a.maxRetry - attempts, 0
  {
    var code := p.runInstances(calls).code;
    if HandleApiErrors(code) && SleepAccepts(a.retryInterval) {
      LoopBudgetPerUnit(p, a, remaining, attempts + 1, calls + 1);
      var rest := Loop(p, a, remaining, attempts + 1, calls + 1);
      if rest.exit == Exhausted {
        RetryStepBudget(RunInstancesCall(Err(code)), Sleep(a.retryInterval), rest.trace, a.maxRetry, a.maxRetry - attempts - 1);
      }
    }
  }

  lemma BudgetPerUnit(p: Provider, a: LaunchArgs)
    ensures var r := LaunchInstances(p, a);
            r.exit == Exhausted ==>
              RetriedCalls(AfterLastLaunch(r.trace), if a.targetCount > 0 && a.maxRetry > 0 then a.maxRetry else 0)
  {
    if a.targetCount > 0 && a.maxRetry > 0 {
      LoopBudgetPerUnit(p, a, a.targetCount, 0, 0);
    }
  }

  /** An instance of the per-unit budget: with a budget of two, alternating one
      retryable failure and one success launches both instances, although two
      failures in total would have exhausted a shared budget. */
  lemma BudgetResetsAfterLaunch()
    ensures var p := Provider(k => if k % 2 == 0 then Err("RequestLimitExceeded") else Ok, k => false);
            var r := LaunchInstances(p, LaunchArgs(2, 10, 2));
            && r.exit == Done && r.remaining == 0
            && r.trace == [RunInstancesCall(Err("RequestLimitExceeded")), Sleep(10),
                           RunInstancesCall(Ok), Publish(false),
                           RunInstancesCall(Err("RequestLimitExceeded")), Sleep(10),
                           RunInstancesCall(Ok), Publish(false)]
  {
  }
}

=== FILE: outcomes.dfy ===
/**
 Vocabulary shared by the two provisioning scripts: what a control-plane call
 can return, how a retry loop can end, and counting over event traces.
 */
module Outcomes {

  /** What one control-plane call returned: success, or a client error carrying
      the provider's error code. */
  datatype ApiOutcome = Ok | Err(code: string)

  /** A scripted provider for a call that may be issued many times: the outcome
      of the k-th such call, counting from 0. */
  type Oracle = nat -> ApiOutcome

  /** The outcomes `o` are what `oracle` answers to calls `start`,
      `start + 1`, ... in this order: the k-th call made reads the k-th
      scripted outcome. */
  ghost predicate ReadsInOrder(o: seq<ApiOutcome>, oracle: Oracle, start: nat) {
    forall j :: 0 <= j < |o| ==> o[j] == oracle(start + j)
  }

  /** Reading call `start` and then calls from `start + 1` on in order is
      reading in order from `start`. */
  lemma ReadStep(x: ApiOutcome, rest: seq<ApiOutcome>, oracle: Oracle, start: nat)
    requires oracle(start) == x && ReadsInOrder(rest, oracle, start + 1)
    ensures ReadsInOrder([x] + rest, oracle, start)
  {
    forall j | 0 <= j < |[x] + rest|
      ensures ([x] + rest)[j] == oracle(start + j)
    {
      if j > 0 {
        assert ([x] + rest)[j] == rest[j - 1];
      }
    }
  }

  datatype Option<+T> = None | Some(value: T)

  /** A Python call that either returns a value or raises a client error. */
  datatype Returns<+T> = Returned(value: T) | Raised(code: string)

  /** How a bounded retry loop ends. `Done` and `Exhausted` are normal returns
      (the script does not tell them apart to its caller); `Aborted` re-raises a
      non-retryable client error; `SleepRejected` is the error `time.sleep`
      raises for an interval it does not accept (see `SleepAccepts`). */
  datatype LoopExit = Done | Exhausted | Aborted(code: string) | SleepRejected(seconds: int) {
    predicate Raises() {
      Aborted? || SleepRejected?
    }
  }

  /** The longest whole number of seconds CPython's `time.sleep` accepts: it
      converts its argument to signed 64-bit nanoseconds, so 2^63 - 1 ns. */
  const MaxSleepSeconds: int := 9223372036

  /** `time.sleep(seconds)` on an `int` returns normally: below zero it raises
      `ValueError`, beyond `MaxSleepSeconds` it raises `OverflowError`; neither
      is a client error, so both escape the retry loops. */
  predicate SleepAccepts(seconds: int) {
    0 <= seconds <= MaxSleepSeconds
  }

  /** Number of elements of `s` that satisfy `p`. */
  function Count<E>(s: seq<E>, p: E -> bool): (n: nat)
    ensures n <= |s|
    decreases |s|
  {
    if s == [] then 0
    else (if p(s[0]) then 1 else 0) + Count(s[1..], p)
  }

  /** Counting distributes over concatenation. */
  lemma {:induction false} CountConcat<E>(a: seq<E>, b: seq<E>, p: E -> bool)
    ensures Count(a + b, p) == Count(a, p) + Count(b, p)
    decreases |a|
  {
    if a == [] {
      assert a + b == b;
    } else {
      assert (a + b)[1..] == a[1..] + b;
      CountConcat(a[1..], b, p);
    }
  }

  /** Nothing is counted when no element satisfies `p`. */
  lemma {:induction false} NoneCounted<E>(t: seq<E>, p: E -> bool)
    requires forall i :: 0 <= i < |t| ==> !p(t[i])
    ensures Count(t, p) == 0
    decreases |t|
  {
    if t != [] {
      NoneCounted(t[1..], p);
    }
  }

  lemma CountPair<E>(x: E, y: E, rest: seq<E>, p: E -> bool)
    ensures Count([x, y] + rest, p) == (if p(x) then 1 else 0) + (if p(y) then 1 else 0) + Count(rest, p)
  {
    CountConcat([x, y], rest, p);
  }

  lemma CountOne<E>(x: E, p: E -> bool)
    ensures Count([x], p) == if p(x) then 1 else 0
  {
  }

  lemma PairIndex<E>(x: E, y: E, rest: seq<E>)
    ensures |[x, y] + rest| == |rest| + 2
    ensures ([x, y] + rest)[0] == x && ([x, y] + rest)[1] == y
    ensures forall i :: 2 <= i < |rest| + 2 ==> ([x, y] + rest)[i] == rest[i - 2]
  {
  }
}

=== FILE: sagemaker_deploy.dfy ===
/**
 The control core of the SageMaker script (sagemaker-auto-creation.py): the
 error classifier, the existence check, the single-shot endpoint-config
 creation, the endpoint-creation retry loop with its compensating delete, and
 the phase sequencing of `main`.

 `create_endpoint` may be called many times and reads its outcomes from an
 oracle indexed by call number; every other call is made at most once per run
 and reads a single scripted outcome.
 */
module SageMakerDeploy {
  import opened Outcomes

  /** Keys of the `retry_errors` table: the error codes the script retries. */
  const RetryErrorCodes: set<string> := {"ThrottlingException", "ServiceUnavailable", "InternalFailure"}

  /** The error code by which `describe_endpoint_config` reports a missing config. */
  const NotFoundCode: string := "ValidationException"

  /** `handle_api_errors`: true when the client error is worth a retry. */
  function HandleApiErrors(code: string): (retry: bool)
    ensures retry <==>
              || code == "ThrottlingException"
              || code == "ServiceUnavailable"
              || code == "InternalFailure"
  {
    code in RetryErrorCodes
  }

  function ConfigName(modelName: string): string { modelName + "-config" }

  function EndpointName(modelName: string): string { modelName + "-endpoint" }

  /** What the script does that the outside world can observe. */
  datatype Event =
    | DescribeEndpointConfigCall(config: string, outcome: ApiOutcome)
    | CreateEndpointConfigCall(config: string, outcome: ApiOutcome)
    | CreateEndpointCall(endpoint: string, config: string, outcome: ApiOutcome)
    | DeleteEndpointConfigCall(config: string, outcome: ApiOutcome)
    | Publish(delivered: bool)
    | Sleep(seconds: int)

  predicate IsDescribe(e: Event) { e.DescribeEndpointConfigCall? }
  predicate IsConfigCreate(e: Event) { e.CreateEndpointConfigCall? }
  predicate IsEndpointCreate(e: Event) { e.CreateEndpointCall? }
  predicate IsDelete(e: Event) { e.DeleteEndpointConfigCall? }
  predicate IsSleep(e: Event) { e.Sleep? }

  /** The local file system and the provider as seen by one run. */
  datatype Provider = Provider(
    configFileExists: bool,      // whether `config.json` exists in the working directory
    describeConfig: ApiOutcome,
    createConfig: ApiOutcome,
    createEndpoint: Oracle,
    deleteConfig: ApiOutcome,
    publish: bool)

  /** `config_exists`: a successful describe means the config exists, the
      not-found validation error means it does not, and any other client error
      propagates. */
  function ConfigExists(describe: ApiOutcome): (r: Returns<bool>)
    ensures r == Returned(true) <==> describe.Ok?
    ensures r == Returned(false) <==> describe == Err(NotFoundCode)
    ensures r.Raised? <==> describe.Err? && describe.code != NotFoundCode
    ensures r.Raised? ==> r.code == describe.code
  {
    match describe
    case Ok => Returned(true)
    case Err(code) => if code == NotFoundCode then Returned(false) else Raised(code)
  }

  /** The trace of the configuration phase and what `create_endpoint_config`
      returned (`None` for Python's `None`) or raised. */
  datatype ConfigPhase = ConfigPhase(trace: seq<Event>, result: Returns<Option<string>>)

  /** `create_endpoint_config`: two idempotency guards, then one create attempt
      with no retry and no sleep. */
  function CreateEndpointConfig(p: Provider, modelName: string): (r: ConfigPhase)
    ensures p.configFileExists ==> r == ConfigPhase([], Returned(None))
    ensures !p.configFileExists && p.describeConfig.Ok? ==>
              r.result == Returned(None) && Count(r.trace, IsConfigCreate) == 0
    ensures Count(r.trace, IsConfigCreate) <= 1 && Count(r.trace, IsSleep) == 0
    ensures Count(r.trace, IsConfigCreate) == 1 <==>
              !p.configFileExists && p.describeConfig == Err(NotFoundCode)
    ensures r.result.Returned? && r.result.value.Some? ==>
              && r.result.value.value == ConfigName(modelName)
              && r.trace == [DescribeEndpointConfigCall(ConfigName(modelName), Err(NotFoundCode)),
                             CreateEndpointConfigCall(ConfigName(modelName), Ok)]
    ensures r.result.Raised? ==>
              || p.describeConfig == Err(r.result.code)
              || (p.describeConfig == Err(NotFoundCode) && p.createConfig == Err(r.result.code)
                  && !HandleApiErrors(r.result.code))
    ensures forall i :: 0 <= i < |r.trace| ==>
              (IsDescribe(r.trace[i]) || IsConfigCreate(r.trace[i])) && r.trace[i].config == ConfigName(modelName)
    ensures !p.configFileExists && p.describeConfig.Err? && p.describeConfig.code != NotFoundCode ==>
              r.result == Raised(p.describeConfig.code)
    ensures !p.configFileExists && p.describeConfig == Err(NotFoundCode) && p.createConfig.Err? ==>
              r.result == (if HandleApiErrors(p.createConfig.code) then Returned(None) else Raised(p.createConfig.code))
    ensures !p.configFileExists && p.describeConfig == Err(NotFoundCode) && p.createConfig.Ok? ==>
              r.result == Returned(Some(ConfigName(modelName)))
  {
    var name := ConfigName(modelName);
    if p.configFileExists then
      ConfigPhase([], Returned(None))
    else
      var describe := DescribeEndpointConfigCall(name, p.describeConfig);
      match ConfigExists(p.describeConfig)
      case Raised(code) => ConfigPhase([describe], Raised(code))
      case Returned(exists_) =>
        if exists_ then
          ConfigPhase([describe], Returned(None))
        else
          var calls := [describe, CreateEndpointConfigCall(name, p.createConfig)];
          match p.createConfig
          case Ok => ConfigPhase(calls, Returned(Some(name)))
          case Err(code) =>
            if HandleApiErrors(code) then ConfigPhase(calls, Returned(None))
            else ConfigPhase(calls, Raised(code))
  }

  /** One run of `create_endpoint`: its trace, the final `retry_attempts` and
      how the loop ended (`Done` when an endpoint was created). */
  datatype EndpointRun = EndpointRun(trace: seq<Event>, attempts: int, exit: LoopExit)

  /** The `while` loop of `create_endpoint` from a loop head after `attempts`
      failed calls; the `attempts`-th call reads `createEndpoint(attempts)`. */
  function EndpointLoop(p: Provider, endpoint: string, config: string, interval: int, maxRetries: int, attempts: nat): (r: EndpointRun)
    ensures r.attempts >= attempts
    ensures attempts <= maxRetries ==> r.attempts <= maxRetries
    ensures r.exit.Exhausted? ==> r.attempts == (if attempts < maxRetries then maxRetries else attempts)
    ensures Count(r.trace, IsEndpointCreate) == r.attempts - attempts + (if r.exit.Done? then 1 else 0)
    decreases maxRetries - attempts
  {
    if !(attempts < maxRetries) then
      EndpointRun([], attempts, Exhausted)
    else
      var outcome := p.createEndpoint(attempts);
      var call := CreateEndpointCall(endpoint, config, outcome);
      match outcome
      case Ok =>
        EndpointRun([call, Publish(p.publish)], attempts, Done)
      case Err(code) =>
        if !HandleApiErrors(code) then
          EndpointRun([call, DeleteEndpointConfigCall(config, p.deleteConfig)], attempts + 1, Aborted(code))
        else if !SleepAccepts(interval) then
          EndpointRun([call], attempts + 1, SleepRejected(interval))
        else
          var rest := EndpointLoop(p, endpoint, config, interval, maxRetries, attempts + 1);
          var step := [call, Sleep(interval)];
          CountConcat(step, rest.trace, IsEndpointCreate);
          rest.(trace := step + rest.trace)
  }

  /** `create_endpoint`. */
  function CreateEndpoint(p: Provider, modelName: string, configName: string, interval: int, maxRetries: int): (r: EndpointRun)
    ensures maxRetries <= 0 ==> r == EndpointRun([], 0, Exhausted)
    ensures 0 <= r.attempts
    ensures maxRetries >= 0 ==> r.attempts <= maxRetries
  {
    EndpointLoop(p, EndpointName(modelName), configName, interval, maxRetries, 0)
  }

  /** The observable result of `main`: what it did and the process exit code. */
  datatype DeployRun = DeployRun(trace: seq<Event>, exitCode: int)

  /** `main` without argument parsing: the endpoint phase runs only when the
      configuration phase returned a (non-empty) name, and anything raised by
      either phase becomes exit code 1. */
  function Main(p: Provider, modelName: string, interval: int, maxRetries: int): (r: DeployRun)
    ensures r.exitCode in {0, 1}
    ensures CreateEndpointConfig(p, modelName).result.Raised? ==> r.exitCode == 1
    ensures CreateEndpointConfig(p, modelName).trace <= r.trace
  {
    var phase1 := CreateEndpointConfig(p, modelName);
    match phase1.result
    case Raised(_) => DeployRun(phase1.trace, 1)
    case Returned(name) =>
      if name.Some? && name.value != "" then
        var phase2 := CreateEndpoint(p, modelName, name.value, interval, maxRetries);
        DeployRun(phase1.trace + phase2.trace, if phase2.exit.Raises() then 1 else 0)
      else
        DeployRun(phase1.trace, 0)
  }
}

=== FILE: sagemaker_properties.dfy ===
/**
 Properties of the SageMaker flow, stated over the trace a run produces.
 */
module SageMakerProperties {
  import opened Outcomes
  import opened SageMakerDeploy

  predicate IsFatalCreate(e: Event) {
    e.CreateEndpointCall? && e.outcome.Err? && !HandleApiErrors(e.outcome.code)
  }

  predicate IsEndpointCreated(e: Event) {
    e.CreateEndpointCall? && e.outcome.Ok?
  }

  /** The compensating delete: a non-retryable create error is followed by
      exactly one `delete_endpoint_config` of the config the endpoint was to
      use, and by nothing else; the error then re-raised is that create error.
      No other way out of the loop deletes anything. */
  lemma {:induction false} LoopCleanupExactlyOnce(p: Provider, endpoint: string, config: string, interval: int, maxRetries: int, attempts: nat)
    ensures var r := EndpointLoop(p, endpoint, config, interval, maxRetries, attempts);
            var t := r.trace;
            && Count(t, IsDelete) == (if r.exit.Aborted? then 1 else 0)
            && (r.exit.Aborted? ==>
                  && |t| >= 2
                  && t[|t| - 1] == DeleteEndpointConfigCall(config, p.deleteConfig)
                  && t[|t| - 2] == CreateEndpointCall(endpoint, config, Err(r.exit.code))
                  && !HandleApiErrors(r.exit.code))
            && (forall i :: 0 <= i < |t| && IsFatalCreate(t[i]) ==> i == |t| - 2 && r.exit.Aborted?)
    decreases maxRetries - attempts, 1
  {
    var r := EndpointLoop(p, endpoint, config, interval, maxRetries, attempts);
    if attempts < maxRetries {
      var outcome := p.createEndpoint(attempts);
      var call := CreateEndpointCall(endpoint, config, outcome);
      match outcome
      case Ok =>
        CountPair(call, Publish(p.publish), [], IsDelete);
        assert r.trace == [call, Publish(p.publish)] + [];
      case Err(code) =>
        if !HandleApiErrors(code) {
          CountPair(call, DeleteEndpointConfigCall(config, p.deleteConfig), [], IsDelete);
          assert r.trace == [call, DeleteEndpointConfigCall(config, p.deleteConfig)] + [];
        } else if !SleepAccepts(interval) {
          CountOne(call, IsDelete);
        } else {
          CleanupAfterRetry(p, endpoint, config, interval, maxRetries, attempts);
        }
    }
  }

  /** `LoopCleanupExactlyOnce` for a loop head whose call fails with a
      retryable error and then sleeps. */
  lemma {:induction false} CleanupAfterRetry(p: Provider, endpoint: string, config: string, interval: int, maxRetries: int, attempts: nat)
    requires attempts < maxRetries && SleepAccepts(interval)
    requires p.createEndpoint(attempts).Err? && HandleApiErrors(p.createEndpoint(attempts).code)
    ensures var r := EndpointLoop(p, endpoint, config, interval, maxRetries, attempts);
            var t := r.trace;
            && Count(t, IsDelete) == (if r.exit.Aborted? then 1 else 0)
            && (r.exit.Aborted? ==>
                  && |t| >= 2
                  && t[|t| - 1] == DeleteEndpointConfigCall(config, p.deleteConfig)
                  && t[|t| - 2] == CreateEndpointCall(endpoint, config, Err(r.exit.code))
                  && !HandleApiErrors(r.exit.code))
            && (forall i :: 0 <= i < |t| && IsFatalCreate(t[i]) ==> i == |t| - 2 && r.exit.Aborted?)
    decreases maxRetries - attempts, 0
  {
    var call := CreateEndpointCall(endpoint, config, p.createEndpoint(attempts));
    LoopCleanupExactlyOnce(p, endpoint, config, interval, maxRetries, attempts + 1);
    var rest := EndpointLoop(p, endpoint, config, interval, maxRetries, attempts + 1);
    CountPair(call, Sleep(interval), rest.trace, IsDelete);
    PairIndex(call, Sleep(interval), rest.trace);
  }

  lemma CleanupExactlyOnce(p: Provider, modelName: string, config: string, interval: int, maxRetries: int)
    ensures var r := CreateEndpoint(p, modelName, config, interval, maxRetries);
            var t := r.trace;
            && Count(t, IsDelete) == (if r.exit.Aborted? then 1 else 0)
            && (r.exit.Aborted? ==>
                  && |t| >= 2
                  && t[|t| - 1] == DeleteEndpointConfigCall(config, p.deleteConfig)
                  && t[|t| - 2] == CreateEndpointCall(EndpointName(modelName), config, Err(r.exit.code))
                  && !HandleApiErrors(r.exit.code))
            && (forall i :: 0 <= i < |t| && IsFatalCreate(t[i]) ==> i == |t| - 2 && r.exit.Aborted?)
  {
    LoopCleanupExactlyOnce(p, EndpointName(modelName), config, interval, maxRetries, 0);
  }

  /** The first successful create ends the loop: it is followed only by the
      notification attempt, nothing is deleted, and it is the only success in
      the trace. Conversely, a run that creates the endpoint ends `Done`. */
  lemma {:induction false} LoopFirstSuccessReturns(p: Provider, endpoint: string, config: string, interval: int, maxRetries: int, attempts: nat)
    ensures var r := EndpointLoop(p, endpoint, config, interval, maxRetries, attempts);
            var t := r.trace;
            && (r.exit.Done? ==>
                  && |t| >= 2
                  && t[|t| - 2] == CreateEndpointCall(endpoint, config, Ok)
                  && t[|t| - 1] == Publish(p.publish)
                  && Count(t, IsDelete) == 0)
            && (forall i :: 0 <= i < |t| && IsEndpointCreated(t[i]) ==> i == |t| - 2 && r.exit.Done?)
    decreases maxRetries - attempts
  {
    var r := EndpointLoop(p, endpoint, config, interval, maxRetries, attempts);
    if attempts < maxRetries {
      var outcome := p.createEndpoint(attempts);
      var call := CreateEndpointCall(endpoint, config, outcome);
      match outcome
      case Ok =>
        CountPair(call, Publish(p.publish), [], IsDelete);
        assert r.trace == [call, Publish(p.publish)] + [];
      case Err(code) =>
        if !HandleApiErrors(code) {
          assert r.trace == [call, DeleteEndpointConfigCall(config, p.deleteConfig)] + [];
        } else if SleepAccepts(interval) {
          LoopFirstSuccessReturns(p, endpoint, config, interval, maxRetries, attempts + 1);
          var rest := EndpointLoop(p, endpoint, config, interval, maxRetries, attempts + 1);
          CountPair(call, Sleep(interval), rest.trace, IsDelete);
          PairIndex(call, Sleep(interval), rest.trace);
        }
    }
  }

  lemma FirstSuccessReturns(p: Provider, modelName: string, config: string, interval: int, maxRetries: int)
    ensures var r := CreateEndpoint(p, modelName, config, interval, maxRetries);
            var t := r.trace;
            && (r.exit.Done? ==>
                  && |t| >= 2
                  && t[|t| - 2] == CreateEndpointCall(EndpointName(modelName), config, Ok)
                  && t[|t| - 1] == Publish(p.publish)
                  && Count(t, IsDelete) == 0)
            && (forall i :: 0 <= i < |t| && IsEndpointCreated(t[i]) ==> i == |t| - 2 && r.exit.Done?)
  {
    LoopFirstSuccessReturns(p, EndpointName(modelName), config, interval, maxRetries, 0);
  }

  /** Two endpoint-phase traces that differ at most in what the notification
      and the cleanup delete returned. */
  ghost predicate SameButSideEffects(t1: seq<Event>, t2: seq<Event>) {
    && |t1| == |t2|
    && forall i :: 0 <= i < |t1| ==>
         || t1[i] == t2[i]
         || (t1[i].Publish? && t2[i].Publish?)
         || (t1[i].DeleteEndpointConfigCall? && t2[i].DeleteEndpointConfigCall? && t1[i].config == t2[i].config)
  }

  lemma {:induction false} LoopSideEffectsChangeNothing(p1: Provider, p2: Provider, endpoint: string, config: string, interval: int, maxRetries: int, attempts: nat)
    requires p1.createEndpoint == p2.createEndpoint
    ensures var r1 := EndpointLoop(p1, endpoint, config, interval, maxRetries, attempts);
            var r2 := EndpointLoop(p2, endpoint, config, interval, maxRetries, attempts);
            r1.exit == r2.exit && r1.attempts == r2.attempts && SameButSideEffects(r1.trace, r2.trace)
    decreases maxRetries - attempts
  {
    if attempts < maxRetries {
      assert p1.createEndpoint(attempts) == p2.createEndpoint(attempts);
      match p1.createEndpoint(attempts)
      case Ok =>
      case Err(code) =>
        if HandleApiErrors(code) && SleepAccepts(interval) {
          LoopSideEffectsChangeNothing(p1, p2, endpoint, config, interval, maxRetries, attempts + 1);
        }
    }
  }

  /** Whether the notification was delivered and whether the cleanup delete
      succeeded change neither the outcome (in particular not the error that is
      re-raised) nor any create call or sleep. */
  lemma SideEffectsChangeNothing(p1: Provider, p2: Provider, modelName: string, config: string, interval: int, maxRetries: int)
    requires p1.createEndpoint == p2.createEndpoint
    ensures var r1 := CreateEndpoint(p1, modelName, config, interval, maxRetries);
            var r2 := CreateEndpoint(p2, modelName, config, interval, maxRetries);
            r1.exit == r2.exit && r1.attempts == r2.attempts && SameButSideEffects(r1.trace, r2.trace)
  {
    LoopSideEffectsChangeNothing(p1, p2, EndpointName(modelName), config, interval, maxRetries, 0);
  }

  /** Every endpoint create fails with a retryable error. */
  ghost predicate AlwaysRetryable(p: Provider) {
    forall k :: p.createEndpoint(k).Err? && HandleApiErrors(p.createEndpoint(k).code)
  }

  lemma {:induction false} LoopOnlyRetryable(p: Provider, endpoint: string, config: string, interval: int, maxRetries: int, attempts: nat)
    requires AlwaysRetryable(p) && SleepAccepts(interval)
    ensures var r := EndpointLoop(p, endpoint, config, interval, maxRetries, attempts);
            var n := if attempts < maxRetries then maxRetries - attempts else 0;
            && Count(r.trace, IsEndpointCreate) == n
            && Count(r.trace, IsSleep) == n
            && Count(r.trace, IsDelete) == 0
            && r.exit == Exhausted
    decreases maxRetries - attempts
  {
    if attempts < maxRetries {
      var call := CreateEndpointCall(endpoint, config, p.createEndpoint(attempts));
      LoopOnlyRetryable(p, endpoint, config, interval, maxRetries, attempts + 1);
      var rest := EndpointLoop(p, endpoint, config, interval, maxRetries, attempts + 1);
      CountPair(call, Sleep(interval), rest.trace, IsEndpointCreate);
      CountPair(call, Sleep(interval), rest.trace, IsSleep);
      CountPair(call, Sleep(interval), rest.trace, IsDelete);
    }
  }

  /** With nothing but retryable errors `create_endpoint` makes exactly
      `max_retries` create calls and `max_retries` sleeps (none at all when
      `max_retries` is not positive), deletes nothing and returns normally. */
  lemma OnlyRetryableErrors(p: Provider, modelName: string, config: string, interval: int, maxRetries: int)
    requires AlwaysRetryable(p) && SleepAccepts(interval)
    ensures var r := CreateEndpoint(p, modelName, config, interval, maxRetries);
            var n := if maxRetries > 0 then maxRetries else 0;
            && Count(r.trace, IsEndpointCreate) == n
            && Count(r.trace, IsSleep) == n
            && Count(r.trace, IsDelete) == 0
            && r.exit == Exhausted && !r.exit.Raises()
  {
    LoopOnlyRetryable(p, EndpointName(modelName), config, interval, maxRetries, 0);
  }

  /** The outcomes of the `create_endpoint` calls in `t`, in the order they
      were made. */
  function CreateOutcomes(t: seq<Event>): (o: seq<ApiOutcome>)
    ensures |o| == Count(t, IsEndpointCreate)
    decreases |t|
  {
    if t == [] then []
    else (if IsEndpointCreate(t[0]) then [t[0].outcome] else []) + CreateOutcomes(t[1..])
  }

  lemma CreateOutcomesPair(x: Event, y: Event, rest: seq<Event>)
    requires IsEndpointCreate(x) && !IsEndpointCreate(y)
    ensures CreateOutcomes([x, y] + rest) == [x.outcome] + CreateOutcomes(rest)
  {
    var t := [x, y] + rest;
    assert t[1..] == [y] + rest;
    assert ([y] + rest)[1..] == rest;
  }

  lemma CreateOutcomesOne(x: Event)
    requires IsEndpointCreate(x)
    ensures CreateOutcomes([x]) == [x.outcome]
  {
    assert [x][1..] == [];
  }

  /** From a loop head after `attempts` failed calls, the k-th
      `create_endpoint` call sees the outcome scripted for call
      `attempts + k`. */
  lemma {:induction false} LoopReadsInOrder(p: Provider, endpoint: string, config: string, interval: int, maxRetries: int, attempts: nat)
    ensures var r := EndpointLoop(p, endpoint, config, interval, maxRetries, attempts);
            ReadsInOrder(CreateOutcomes(r.trace), p.createEndpoint, attempts)
    decreases maxRetries - attempts, 1
  {
    if attempts < maxRetries {
      var outcome := p.createEndpoint(attempts);
      var call := CreateEndpointCall(endpoint, config, outcome);
      if outcome.Ok? {
        CreateOutcomesPair(call, Publish(p.publish), []);
        ReadStep(outcome, [], p.createEndpoint, attempts);
      } else if !HandleApiErrors(outcome.code) {
        CreateOutcomesPair(call, DeleteEndpointConfigCall(config, p.deleteConfig), []);
        ReadStep(outcome, [], p.createEndpoint, attempts);
      } else if !SleepAccepts(interval) {
        CreateOutcomesOne(call);
        ReadStep(outcome, [], p.createEndpoint, attempts);
      } else {
        ReadsInOrderAfterRetry(p, endpoint, config, interval, maxRetries, attempts);
      }
    }
  }

  /** `LoopReadsInOrder` for a loop head whose call fails with a retryable
      error and sleeps. */
  lemma {:induction false} ReadsInOrderAfterRetry(p: Provider, endpoint: string, config: string, interval: int, maxRetries: int, attempts: nat)
    requires attempts < maxRetries && p.createEndpoint(attempts).Err?
    requires HandleApiErrors(p.createEndpoint(attempts).code) && SleepAccepts(interval)
    ensures var r := EndpointLoop(p, endpoint, config, interval, maxRetries, attempts);
            ReadsInOrder(CreateOutcomes(r.trace), p.createEndpoint, attempts)
    decreases maxRetries - attempts, 0
  {
    var outcome := p.createEndpoint(attempts);
    LoopReadsInOrder(p, endpoint, config, interval, maxRetries, attempts + 1);
    var rest := EndpointLoop(p, endpoint, config, interval, maxRetries, attempts + 1);
    CreateOutcomesPair(CreateEndpointCall(endpoint, config, outcome), Sleep(interval), rest.trace);
    ReadStep(outcome, CreateOutcomes(rest.trace), p.createEndpoint, attempts);
  }

  /** `create_endpoint` reads the provider's outcomes 0, 1, 2, ... in order,
      one per call it makes. */
  lemma CreateReadsInOrder(p: Provider, modelName: string, config: string, interval: int, maxRetries: int)
    ensures var r := CreateEndpoint(p, modelName, config, interval, maxRetries);
            ReadsInOrder(CreateOutcomes(r.trace), p.createEndpoint, 0)
  {
    LoopReadsInOrder(p, EndpointName(modelName), config, interval, maxRetries, 0);
  }

  /** Phase sequencing in `main`: when the configuration phase returns no name
      (or raises), the run is that phase alone and no endpoint call is made;
      when it returns a name, that name is `model_name + "-config"` and the
      endpoint phase runs with it. */
  lemma EndpointPhaseNeedsConfig(p: Provider, modelName: string, interval: int, maxRetries: int)
    ensures var phase1 := CreateEndpointConfig(p, modelName);
            var r := Main(p, modelName, interval, maxRetries);
            && (phase1.result.Raised? || phase1.result.value.None? ==>
                  r.trace == phase1.trace && Count(r.trace, IsEndpointCreate) == 0)
            && (phase1.result.Returned? && phase1.result.value.Some? ==>
                  r.trace == phase1.trace
                             + CreateEndpoint(p, modelName, ConfigName(modelName), interval, maxRetries).trace)
            && (Count(r.trace, IsEndpointCreate) > 0 ==> phase1.result == Returned(Some(ConfigName(modelName))))
  {
    var phase1 := CreateEndpointConfig(p, modelName);
    var r := Main(p, modelName, interval, maxRetries);
    if phase1.result.Returned? && phase1.result.value.Some? {
      assert |ConfigName(modelName)| > 0;
      CountConcat(phase1.trace, CreateEndpoint(p, modelName, ConfigName(modelName), interval, maxRetries).trace, IsEndpointCreate);
    } else {
      assert r.trace == phase1.trace;
      assert forall i :: 0 <= i < |phase1.trace| ==> !IsEndpointCreate(phase1.trace[i]);
      NoneCounted(phase1.trace, IsEndpointCreate);
    }
  }

  /** In a whole run the only config ever deleted is the one this run created:
      a delete happens at most once, only after `create_endpoint_config`
      succeeded for `model_name + "-config"`, and exactly when the endpoint
      phase hit a non-retryable error. A config that already existed is never
      touched. */
  lemma DeletesOnlyOwnConfig(p: Provider, modelName: string, interval: int, maxRetries: int)
    ensures var phase1 := CreateEndpointConfig(p, modelName);
            var r := Main(p, modelName, interval, maxRetries);
            && Count(r.trace, IsDelete) <= 1
            && (Count(r.trace, IsDelete) == 1 <==>
                  && phase1.result == Returned(Some(ConfigName(modelName)))
                  && CreateEndpoint(p, modelName, ConfigName(modelName), interval, maxRetries).exit.Aborted?)
            && (Count(r.trace, IsDelete) == 1 ==>
                  && r.trace[1] == CreateEndpointConfigCall(ConfigName(modelName), Ok)
                  && r.trace[|r.trace| - 1] == DeleteEndpointConfigCall(ConfigName(modelName), p.deleteConfig))
  {
    var phase1 := CreateEndpointConfig(p, modelName);
    var r := Main(p, modelName, interval, maxRetries);
    assert forall i :: 0 <= i < |phase1.trace| ==> !IsDelete(phase1.trace[i]);
    NoneCounted(phase1.trace, IsDelete);
    if phase1.result.Returned? && phase1.result.value.Some? {
      assert |ConfigName(modelName)| > 0;
      var phase2 := CreateEndpoint(p, modelName, ConfigName(modelName), interval, maxRetries);
      CleanupExactlyOnce(p, modelName, ConfigName(modelName), interval, maxRetries);
      CountConcat(phase1.trace, phase2.trace, IsDelete);
    } else {
      assert r.trace == phase1.trace;
    }
  }

  /** `main` exits with 1 exactly when some phase raised; a config that already
      exists, a retryable config failure and an exhausted endpoint loop all
      end with exit code 0. */
  lemma ExitCode(p: Provider, modelName: string, interval: int, maxRetries: int)
    ensures var phase1 := CreateEndpointConfig(p, modelName);
            var r := Main(p, modelName, interval, maxRetries);
            r.exitCode == 1 <==>
              || phase1.result.Raised?
              || (phase1.result.value.Some?
                  && CreateEndpoint(p, modelName, ConfigName(modelName), interval, maxRetries).exit.Raises())
    ensures p.configFileExists ==> Main(p, modelName, interval, maxRetries).exitCode == 0
    ensures !p.configFileExists && p.describeConfig.Ok? ==> Main(p, modelName, interval, maxRetries).exitCode == 0
    ensures !p.configFileExists && p.describeConfig == Err(NotFoundCode)
            && p.createConfig.Err? && HandleApiErrors(p.createConfig.code) ==>
              Main(p, modelName, interval, maxRetries).exitCode == 0
    ensures !p.configFileExists && p.describeConfig == Err(NotFoundCode) && p.createConfig.Ok?
            && !CreateEndpoint(p, modelName, ConfigName(modelName), interval, maxRetries).exit.Raises() ==>
              Main(p, modelName, interval, maxRetries).exitCode == 0
  {
    var phase1 := CreateEndpointConfig(p, modelName);
    if phase1.result.Returned? && phase1.result.value.Some? {
      assert |ConfigName(modelName)| > 0;
    }
  }
}
